=== FILE: README.md ===
# Deadline-bounded reads, the stopwatch and the display sanitiser of `dangerzone/util.py`

This project is a Dafny model of three pieces of Dangerzone's utility module:

- `nonblocking_read(fd, size, timeout)` offers a blocking, deadline-bounded read
  on a non-blocking descriptor. It validates its arguments and registers the
  descriptor with a selector. Then it waits for readiness, bounded by the
  stopwatch's `remaining` time, and reads at most the bytes still wanted. It
  stops at end of file, when `size` bytes have been read, or with `TimeoutError`.
- `Stopwatch` holds an optional timeout and optional start and end timestamps.
  Its queries are `elapsed` and `remaining`, and it can be used as a context
  manager.
- `replace_control_chars(s)` replaces every character outside Python's
  `string.printable` with `_`.

Modules:

- `Outcomes` (`outcomes.dfy`): `Option`, the exception kinds (`ValueError`,
  `RuntimeError`, `TimeoutError`, `OSError`) and `Result`.
- `Sanitize` (`sanitize.dfy`): `string.printable`, built from digits, ASCII
  letters, punctuation and whitespace as Python builds it. Also
  `replace_control_chars` and its properties.
- `Timing` (`timing.dfy`): `Stopwatch` as an immutable record. Every operation
  that reads `time.monotonic()` in the source takes the reading `now` as an
  argument.
- `Reader` (`reader.dfy`): `nonblocking_read` as a method with loop invariants.
  The operating system is a `world: nat -> Tick`. For pass k of the loop it gives
  the clock reading seen by `remaining`, whether `select` reports an event, and
  what `os.read` finds: the bytes it can hand over (none means end of file) or
  an error. The method returns the result and a `Trace` of its effects: the
  selector registration, every wait bound, every read request with its chunk,
  and whether the selector was closed.
- `ReadScenarios` (`scenarios.dfy`): consequences of the reader's contract for
  concrete descriptor behaviours. These are: everything buffered, a short
  stream then end of file, a silent descriptor, a stall after a partial read,
  and a deadline already past.

The source's `assert size >= 0` is proved rather than assumed. The model gives
`os.read(fd, n)` its POSIX contract (`Reader.OsRead`): at most `n` bytes, taken
from the front of what is available.

`nonblocking_read` closes its selector only on the normal exit
(`dangerzone/util.py:197`); the TimeoutError and OSError paths leave it open.
The model follows the code: `trace.closed` holds exactly when the call returns
normally.

Python treats an end time of 0 as false in `end_time or time.monotonic()`. The
model reproduces this quirk (`Timing.Frozen`): a stopwatch stopped at clock
reading 0 keeps running.

## Model

| member | source | states |
|---|---|---|
| `Sanitize.ReplaceControlChars` | dangerzone/util.py:71-77 | The output has the input's length. Each output character is the input character if that is in `string.printable`, and `_` otherwise. |
| `Sanitize.OutputIsPrintable` | dangerzone/util.py:76 | Every character of the output is in `string.printable`. |
| `Sanitize.Idempotent` | dangerzone/util.py:71-77 | Sanitising a sanitised string changes nothing. |
| `Sanitize.UnchangedIffPrintable` | dangerzone/util.py:74-77 | A string is returned unchanged exactly when all its characters are printable. |
| `Sanitize.PrintableSize` | dangerzone/util.py:76 | `string.printable` has 100 characters. |
| `Sanitize.PrintableIsAsciiRanges` | dangerzone/util.py:76 | A character is in `string.printable` exactly when its code point is in 9..13 or 32..126. |
| `Sanitize.WhichControlsSurvive` | dangerzone/util.py:72-76 | Below space, only tab, line feed, vertical tab, form feed and carriage return pass through. DEL and every non-ASCII character become `_`. |
| `Timing.NewStopwatch` | dangerzone/util.py:97-100 | A new stopwatch keeps the given timeout and is not stopped, and `elapsed` fails with RuntimeError at every clock reading. |
| `Timing.Elapsed` | dangerzone/util.py:103-107 | `elapsed` fails, always with RuntimeError, exactly when the stopwatch was never started. |
| `Timing.Remaining` | dangerzone/util.py:110-122 | RuntimeError exactly when there is no timeout or no start. TimeoutError exactly when elapsed time exceeds the timeout. Otherwise a non-negative value that, added to the elapsed time, gives the timeout. |
| `Timing.Start` | dangerzone/util.py:124-129 | `start`/`__enter__` keep the timeout and end time and set the origin to the given reading. `elapsed` afterwards is measured from that origin, to the old stop reading if the stopwatch was frozen and to the query's reading otherwise. |
| `Timing.Stop` | dangerzone/util.py:131-135 | `stop`/`__exit__` keep timeout and start and always record the end time, started or not. The result is frozen exactly when the reading is non-zero, and then its end time is that reading. Stopped at a non-zero reading, `elapsed` is frozen at stop minus start whenever queried. Stopped at reading 0, it keeps tracking the clock. |
| `Timing.StopBeforeStart` | dangerzone/util.py:105-132 | Stopping a never-started stopwatch at a non-zero reading and then starting it leaves `elapsed` frozen at stop minus start. |
| `Timing.ScopedMeasuresBlock` | dangerzone/util.py:124-135 | Used as a context manager, the stopwatch measures exactly exit minus entry, at a non-zero exit reading. |
| `Timing.RemainingDecreases` | dangerzone/util.py:110-122 | While running, a later successful `remaining` implies an earlier successful one with strictly more time left. |
| `Timing.RemainingAtDeadline` | dangerzone/util.py:115-122 | While running, `remaining` is 0 exactly at start plus timeout and raises TimeoutError at any later reading. |
| `Timing.RestartKeepsStopTime` | dangerzone/util.py:105-132 | Restarting a stopped stopwatch keeps its end time, so `elapsed` stays frozen at a negative value and `remaining` is the same value, larger than the timeout, at every reading. |
| `Reader.OsRead` | dangerzone/util.py:183 | A read returns a prefix of the available bytes, no longer than requested. It is all of them or exactly the requested count. |
| `Reader.NonblockingRead` | dangerzone/util.py:138-198 | Rejects a blocking fd, `size <= 0` and `timeout <= 0`, in that order, with ValueError before registering or reading. Every wait bound is `timeout - (now - t0)` for one start reading `t0`. Each read asks for `size` minus the bytes read before it. Success returns the concatenation of the chunks, at most `size` bytes, short exactly when the last read hit end of file. A timeout or OSError returns no data and leaves the selector open. A wait that reports no events raises TimeoutError carrying the bytes read and the bytes still wanted, which add up to `size`. |
| `Reader.ReadUntilDone` | dangerzone/util.py:168-198 | The loop, entered with the descriptor registered and a stopwatch started at `t0` with the timeout. Every wait uses the one deadline `timeout - (now - t0)`. Each read asks for `size` minus the bytes read before it. It has three exits: the normal return (all `size` bytes, or end of file) with the selector closed; TimeoutError when the deadline has passed or a wait reports no events; and OSError from the read. The last two return no data and leave the selector open. |
| `ReadScenarios.AllBytesBuffered` | dangerzone/util.py:178-195 | With `size` bytes ready at the first wait, one read returns exactly the first `size` bytes. |
| `ReadScenarios.ShortStreamThenEof` | dangerzone/util.py:183-187 | If fewer bytes than requested arrive and then end of file, exactly those bytes are returned, without error. |
| `ReadScenarios.SilentDescriptor` | dangerzone/util.py:179-181 | A descriptor that is never ready gives TimeoutError after one wait and no read, with 0 of `size` bytes read. |
| `ReadScenarios.StallAfterPartialRead` | dangerzone/util.py:179-190 | A stall after a partial read raises TimeoutError and drops the partial data. The message as written reports the bytes still wanted, not the bytes requested. |
| `ReadScenarios.DeadlinePassedBeforeFirstWait` | dangerzone/util.py:169-179 | If the deadline has passed at the first `remaining` query, TimeoutError is raised before any wait or read. |

## Left out

- `get_config_dir`, `get_tmp_dir`, `get_resource_path`, `get_version` and `get_subprocess_startupinfo` are left out. They are platform, environment and file-system shims with no algorithmic content.
- Real `selectors`, `os.read`, `os.get_blocking` and `time.monotonic` are not modelled. Their results are inputs: `fd.blocking`, the start reading `t0`, and the per-pass `world` (clock reading, readiness, read reply). Readiness timing and clock behaviour are not modelled.
- Each pass's read reply is an independent input. The model does not relate what one pass leaves unread to what the next pass sees, so any real byte stream is one possible `world`.
- Accepting a file object and calling `fileno()` is not modelled. Only the descriptor's blocking flag is observed.
- Floating point is left out. Time, durations and timeouts are integer ticks.
- Exception message texts are not modelled, including the template at `dangerzone/util.py:119` that is never filled in. Only the exception kind is kept, plus the two numbers of the stall message at line 181 (see Findings).
- Sanitize.ReplaceControlChars: lone surrogate code points (U+D800 to U+DFFF) are not representable, because a Dafny `char` is a Unicode scalar value. A Python `str` can hold them, for example after decoding with `surrogateescape`, and the source turns each into `_`.
- Timing.Elapsed: its own contract states only when and how it fails. The value it returns is stated by the contracts of `Timing.Start` and `Timing.Stop`, and by `Timing.ScopedMeasuresBlock`.
- Failures of `os.get_blocking` (an invalid descriptor), `selectors.DefaultSelector()`, `register` and `select` are not modelled. `os.read` failures are a single `OSError` kind. Its OverflowError for `size` above `sys.maxsize` is not modelled.

## Findings

| source | as written | input that shows it | evidently intended | confidence | as-written member | corrected member |
|---|---|---|---|---|---|---|
| dangerzone/util.py:181 | The TimeoutError message interpolates `size`, which line 190 has already decremented by every chunk read. It reports "read got/still-wanted bytes". | `size = 5`; the first read returns 3 bytes; the next wait reports no events. The message says "3/2 bytes". | "3/5 bytes": bytes read out of bytes requested. | high; not executed | `Reader.ReportedProgress`, exhibited by `ReadScenarios.StallAfterPartialRead` (reported total is `size - got`, never `size`) | `Reader.IntendedProgress`, proved equal to (bytes read, `size`) in `Reader.NonblockingRead` and `ReadScenarios.StallAfterPartialRead` |

=== FILE: outcomes.dfy ===
/** Optional values, the exceptions `dangerzone/util.py` raises, and a result type
    that carries either a value or one of those exceptions. */
module Outcomes {

  /** Python's `Optional[...]`: either `None` or a present value. */
  datatype Option<+T> = None | Some(value: T)

  /** Which argument check of `nonblocking_read` rejected the call. */
  datatype BadArg = BlockingFd | NonPositiveSize | NonPositiveTimeout

  /** Why a `TimeoutError` was raised.
      - `Surpassed`: `Stopwatch.remaining` found the timeout already passed;
      - `Stalled(got, sizeLeft)`: the readiness wait returned no events after
        `got` bytes had been read, with `sizeLeft` bytes still wanted. */
  datatype TimeoutCause = Surpassed | Stalled(got: nat, sizeLeft: int)

  /** The exception kinds the modelled code can raise; message texts are not modelled. */
  datatype Exc =
    | ValueError(arg: BadArg)
    | RuntimeError
    | TimeoutError(cause: TimeoutCause)
    | OSError

  /** A value, or the exception raised instead of returning one. */
  datatype Result<+T> = Ok(value: T) | Err(error: Exc)
}

=== FILE: reader.dfy ===
/** `nonblocking_read`: a blocking, deadline-bounded read of up to `size` bytes
    from a non-blocking descriptor, driven by readiness waits.

    The operating system is abstracted as a `world`: for the k-th pass of the
    loop it says what the monotonic clock reads when `remaining` is queried,
    whether the readiness wait reports an event, and what `os.read` would
    find.  The clock reading taken by `sw.start()` is the argument `t0`. */
module Reader {
  import opened Outcomes
  import opened Timing

  newtype byte = b: int | 0 <= b < 256
  type bytes = seq<byte>

  /** A descriptor, of which only `os.get_blocking` is observed. */
  datatype Fd = Fd(blocking: bool)

  /** What `os.read` finds on the descriptor: the bytes it could hand over
      (none means end of file), or an error it raises. */
  datatype Reply = Available(data: bytes) | ReadFails

  /** One pass of the loop: clock reading, readiness, and the read's reply. */
  datatype Tick = Tick(now: int, ready: bool, reply: Reply)

  /** One `os.read(fd, request)` call and the chunk it returned. */
  datatype ReadCall = ReadCall(request: int, chunk: bytes)

  /** The observable effects of one call: whether the descriptor was registered
      with a selector, the wait bound passed to each `select`, each read, and
      whether the selector was closed. */
  datatype Trace = Trace(registered: bool, waits: seq<int>, calls: seq<ReadCall>, closed: bool)

  /** `os.read(fd, n)` on a descriptor holding `avail`: at most `n` bytes, taken
      from the front; empty exactly at end of file (or when nothing is asked). */
  function OsRead(avail: bytes, n: nat): (chunk: bytes)
    ensures chunk <= avail
    ensures |chunk| <= n
    ensures |chunk| == n || chunk == avail
  {
    if |avail| <= n then avail else avail[..n]
  }

  /** The bytes of a sequence of calls, concatenated in order. */
  function Concat(calls: seq<ReadCall>): bytes {
    if calls == [] then [] else Concat(calls[..|calls| - 1]) + calls[|calls| - 1].chunk
  }

  lemma ConcatAppend(calls: seq<ReadCall>, call: ReadCall)
    ensures Concat(calls + [call]) == Concat(calls) + call.chunk
  {
  }

  /** The two numbers of the "read got/total bytes" message of the TimeoutError
      raised when a wait reports no events. */
  datatype Progress = Progress(got: nat, total: int)

  /** The message as the source builds it: `total` is the loop's `size`, which
      has already been decremented by every chunk read, so it is the count still
      wanted and not the count requested. */
  function ReportedProgress(cause: TimeoutCause): Progress
    requires cause.Stalled?
  {
    Progress(cause.got, cause.sizeLeft)
  }

  /** The message as its wording intends it: bytes read out of bytes requested. */
  function IntendedProgress(cause: TimeoutCause): Progress
    requires cause.Stalled?
  {
    Progress(cause.got, cause.got + cause.sizeLeft)
  }

  predicate ValidArgs(fd: Fd, size: int, timeout: int) {
    !fd.blocking && size > 0 && timeout > 0
  }

  /** Every wait bound is what `remaining` reports for one deadline, `timeout`
      after the start reading `t0`, at that pass's clock reading. */
  predicate WaitsFollowDeadline(world: nat -> Tick, timeout: int, t0: int, waits: seq<int>) {
    forall k {:trigger waits[k]} :: 0 <= k < |waits| ==> waits[k] == timeout - (world(k).now - t0) && waits[k] >= 0
  }

  /** The k-th read happened on a ready descriptor and asked for exactly the
      bytes still wanted after the reads before it. */
  predicate ReadAsksForRest(world: nat -> Tick, size: int, calls: seq<ReadCall>, k: nat)
    requires k < |calls|
  {
    var wanted := size - |Concat(calls[..k])|;
    world(k).ready && world(k).reply.Available? && wanted > 0 &&
    calls[k] == ReadCall(wanted, OsRead(world(k).reply.data, wanted))
  }

  predicate ReadsAskForRest(world: nat -> Tick, size: int, calls: seq<ReadCall>) {
    forall k :: 0 <= k < |calls| ==> ReadAsksForRest(world, size, calls, k)
  }

  lemma ReadsAskForRestAppend(world: nat -> Tick, size: int, calls: seq<ReadCall>, wanted: nat)
    requires ReadsAskForRest(world, size, calls)
    requires wanted == size - |Concat(calls)| > 0
    requires world(|calls|).ready && world(|calls|).reply.Available?
    ensures ReadsAskForRest(world, size, calls + [ReadCall(wanted, OsRead(world(|calls|).reply.data, wanted))])
  {
    var next := calls + [ReadCall(wanted, OsRead(world(|calls|).reply.data, wanted))];
    forall k | 0 <= k < |next|
      ensures ReadAsksForRest(world, size, next, k)
    {
      if k == |calls| {
        assert next[..k] == calls;
      } else {
        assert next[..k] == calls[..k];
        assert ReadAsksForRest(world, size, calls, k);
      }
    }
  }

  /** How the outcome of a call shows in its trace.  Valid arguments lead to a
      registration and never to ValueError; the stopwatch is never misused; a
      normal exit returns all that was read, in order, after as many reads as
      waits, and is short exactly when the last read hit end of file; and each
      failure is explained by the pass it happened on: the deadline had passed
      when `remaining` was queried, the wait reported no events (with the bytes
      read and still wanted), or the read raised. */
  predicate ExitMatchesTrace(fd: Fd, size: int, timeout: int, t0: int, world: nat -> Tick,
                             r: Result<bytes>, trace: Trace)
  {
    && (ValidArgs(fd, size, timeout) ==> trace.registered && !(r.Err? && r.error.ValueError?))
    && r != Err(RuntimeError)
    && (r.Ok? ==> r.value == Concat(trace.calls))
    && (r.Ok? ==> |trace.calls| == |trace.waits| > 0 &&
                  (|r.value| < size <==> trace.calls[|trace.calls| - 1].chunk == []))
    && (r == Err(TimeoutError(Surpassed)) ==>
          |trace.waits| == |trace.calls| && world(|trace.calls|).now - t0 > timeout)
    && (r.Err? && r.error.TimeoutError? && r.error.cause.Stalled? ==>
          |trace.waits| == |trace.calls| + 1 && !world(|trace.calls|).ready &&
          r.error.cause == Stalled(|Concat(trace.calls)|, size - |Concat(trace.calls)|) &&
          IntendedProgress(r.error.cause) == Progress(|Concat(trace.calls)|, size))
    && (r == Err(OSError) ==>
          |trace.waits| == |trace.calls| + 1 && world(|trace.calls|).ready &&
          world(|trace.calls|).reply.ReadFails?)
  }

  /** What the loop promises about its trace, whichever way it ends: the selector
      is closed on the normal exit only; every wait is bounded by one deadline,
      fixed at `t0` before the loop; a read follows each wait that reported an
      event and asks only for what is still wanted; only the last read can hit end
      of file; no more than `size` bytes are read; and a failure after
      registration happens before `size` bytes or end of file. */
  predicate LoopMatchesTrace(fd: Fd, size: int, timeout: int, t0: int, world: nat -> Tick,
                             r: Result<bytes>, trace: Trace)
  {
    && (trace.closed <==> r.Ok?)
    && WaitsFollowDeadline(world, timeout, t0, trace.waits)
    && |trace.calls| <= |trace.waits| <= |trace.calls| + 1
    && ReadsAskForRest(world, size, trace.calls)
    && (forall k :: 0 <= k < |trace.calls| - 1 ==> trace.calls[k].chunk != [])
    && (ValidArgs(fd, size, timeout) ==> |Concat(trace.calls)| <= size && |trace.calls| <= size)
    && (ValidArgs(fd, size, timeout) && r.Err? ==>
          |Concat(trace.calls)| < size && forall k :: 0 <= k < |trace.calls| ==> trace.calls[k].chunk != [])
  }

  /** `nonblocking_read(fd, size, timeout)`. */
  method NonblockingRead(fd: Fd, size: int, timeout: int, t0: int, world: nat -> Tick)
    returns (r: Result<bytes>, trace: Trace)
    // argument validation, in the order of the source, before anything else happens
    ensures fd.blocking ==> r == Err(ValueError(BlockingFd))
    ensures !fd.blocking && size <= 0 ==> r == Err(ValueError(NonPositiveSize))
    ensures !fd.blocking && size > 0 && timeout <= 0 ==> r == Err(ValueError(NonPositiveTimeout))
    ensures !ValidArgs(fd, size, timeout) ==> trace == Trace(false, [], [], false)
    // the loop's trace, and how each exit shows in it
    ensures LoopMatchesTrace(fd, size, timeout, t0, world, r, trace)
    ensures ExitMatchesTrace(fd, size, timeout, t0, world, r, trace)
  {
    if fd.blocking {
      return Err(ValueError(BlockingFd)), Trace(false, [], [], false);
    }
    if size <= 0 {
      return Err(ValueError(NonPositiveSize)), Trace(false, [], [], false);
    }
    if timeout <= 0 {
      return Err(ValueError(NonPositiveTimeout)), Trace(false, [], [], false);
    }
    // register the descriptor, then start the stopwatch
    var sw := Start(NewStopwatch(Some(timeout)), t0);
    assert sw == Stopwatch(Some(timeout), Some(t0), None);
    r, trace := ReadUntilDone(fd, size, timeout, t0, world, sw);
  }

  /** The loop of `nonblocking_read`, entered with the descriptor registered and
      a running stopwatch `sw` that started at `t0` with the given timeout. */
  method ReadUntilDone(fd: Fd, size: int, timeout: int, t0: int, world: nat -> Tick, sw: Stopwatch)
    returns (r: Result<bytes>, trace: Trace)
    requires ValidArgs(fd, size, timeout)
    requires sw == Stopwatch(Some(timeout), Some(t0), None)
    ensures LoopMatchesTrace(fd, size, timeout, t0, world, r, trace)
    ensures ExitMatchesTrace(fd, size, timeout, t0, world, r, trace)
  {
    var buf: bytes := [];
    var left := size;
    var waits: seq<int> := [];
    var calls: seq<ReadCall> := [];

    while true
      invariant 0 < left && |buf| + left == size
      invariant buf == Concat(calls)
      invariant |waits| == |calls| <= size - left
      invariant WaitsFollowDeadline(world, timeout, t0, waits)
      invariant ReadsAskForRest(world, size, calls)
      invariant forall k :: 0 <= k < |calls| ==> calls[k].chunk != []
      decreases left
    {
      var tick := world(|calls|);
      var remaining := Remaining(sw, tick.now);
      if remaining.Err? {
        assert tick.now - t0 > timeout;
        return Err(remaining.error), Trace(true, waits, calls, false);
      }
      waits := waits + [remaining.value];
      if !tick.ready {
        return Err(TimeoutError(Stalled(|buf|, left))), Trace(true, waits, calls, false);
      }
      if tick.reply.ReadFails? {
        return Err(OSError), Trace(true, waits, calls, false);
      }

      var chunk := OsRead(tick.reply.data, left);
      ConcatAppend(calls, ReadCall(left, chunk));
      ReadsAskForRestAppend(world, size, calls, left);
      calls := calls + [ReadCall(left, chunk)];
      buf := buf + chunk;
      if chunk == [] {
        // end of file
        break;
      }
      left := left - |chunk|;
      assert left >= 0;
      if left == 0 {
        break;
      }
    }
    return Ok(buf), Trace(true, waits, calls, true);
  }
}

=== FILE: sanitize.dfy ===
/** `replace_control_chars`: every character outside Python's `string.printable`
    is replaced by an underscore. */
module Sanitize {

  /** The characters `lo` through `hi`, in code-point order (ASCII only). */
  function CharRange(lo: char, hi: char): (s: string)
    requires lo <= hi < '\U{80}'
    ensures |s| == hi as int - lo as int + 1
    ensures forall c :: c in s <==> lo <= c <= hi
  {
    var s := seq(hi as int - lo as int + 1, i requires 0 <= i <= hi as int - lo as int => (lo as int + i) as char);
    forall c | lo <= c <= hi
      ensures c in s
    {
      assert s[c as int - lo as int] == c;
    }
    s
  }

  /** `string.digits`, `string.ascii_letters`, `string.punctuation` and
      `string.whitespace`, assembled into `string.printable` as Python does. */
  const Digits: string := CharRange('0', '9')
  const AsciiLetters: string := CharRange('a', 'z') + CharRange('A', 'Z')
  const Punctuation: string :=
    CharRange('!', '/') + CharRange(':', '@') + CharRange('[', '`') + CharRange('{', '~')
  const Whitespace: string := " \t\n\r\U{B}\U{C}"
  const Printable: string := Digits + AsciiLetters + Punctuation + Whitespace

  predicate IsPrintable(c: char) {
    c in Printable
  }

  /** `string.printable` has 100 characters. */
  lemma PrintableSize()
    ensures |Printable| == 100
  {
  }

  /** `string.printable` is exactly the code points 9..13 (tab, line feed, vertical
      tab, form feed, carriage return) and 32..126 (space through tilde). */
  lemma PrintableIsAsciiRanges(c: char)
    ensures IsPrintable(c) <==> ('\t' <= c <= '\r' || ' ' <= c <= '~')
  {
  }

  /** Sanitise an untrusted string for display: printable characters are kept,
      every other character becomes `'_'`.  Built left to right, one character
      at a time, like the accumulating loop of the source. */
  function ReplaceControlChars(untrusted: string): (r: string)
    ensures |r| == |untrusted|
    ensures forall i :: 0 <= i < |untrusted| ==>
              r[i] == (if IsPrintable(untrusted[i]) then untrusted[i] else '_')
  {
    if untrusted == [] then []
    else
      var c := untrusted[|untrusted| - 1];
      ReplaceControlChars(untrusted[..|untrusted| - 1]) + [if IsPrintable(c) then c else '_']
  }

  /** The output consists of printable characters only. */
  lemma OutputIsPrintable(untrusted: string)
    ensures forall i :: 0 <= i < |untrusted| ==> IsPrintable(ReplaceControlChars(untrusted)[i])
  {
  }

  /** Sanitising twice is the same as sanitising once. */
  lemma Idempotent(untrusted: string)
    ensures ReplaceControlChars(ReplaceControlChars(untrusted)) == ReplaceControlChars(untrusted)
  {
  }

  /** A string is left unchanged exactly when all of its characters are printable. */
  lemma UnchangedIffPrintable(untrusted: string)
    ensures ReplaceControlChars(untrusted) == untrusted <==>
            forall i :: 0 <= i < |untrusted| ==> IsPrintable(untrusted[i])
  {
  }

  /** Of the C0 control characters, the five whitespace controls (tab, line feed,
      vertical tab, form feed, carriage return) pass through unchanged; all other
      control characters below space, DEL, and every non-ASCII character are replaced. */
  lemma WhichControlsSurvive(c: char)
    ensures c < ' ' ==> (ReplaceControlChars([c]) == [c] <==> '\t' <= c <= '\r')
    ensures c >= '\U{7F}' ==> ReplaceControlChars([c]) == "_"
  {
    PrintableIsAsciiRanges(c);
  }
}

=== FILE: scenarios.dfy ===
/** Consequences of the `nonblocking_read` contract for concrete behaviours of
    the descriptor: everything buffered, a short stream, a silent descriptor,
    a stall after a partial read, and a deadline already past. */
module ReadScenarios {
  import opened Outcomes
  import opened Reader

  /** The k-th pass queries `remaining` no later than the deadline. */
  predicate InTime(world: nat -> Tick, timeout: int, t0: int, k: nat) {
    world(k).now - t0 <= timeout
  }

  /** When the first pass is in time, ready and readable, the first read asks for
      the whole size and gets what `os.read` hands over. */
  lemma FirstPassReads(fd: Fd, size: int, timeout: int, t0: int, world: nat -> Tick, r: Result<bytes>, trace: Trace)
    requires ValidArgs(fd, size, timeout)
    requires InTime(world, timeout, t0, 0) && world(0).ready && world(0).reply.Available?
    requires ReadsAskForRest(world, size, trace.calls)
    requires ExitMatchesTrace(fd, size, timeout, t0, world, r, trace)
    ensures |trace.calls| > 0
    ensures trace.calls[0].chunk == OsRead(world(0).reply.data, size)
    ensures Concat(trace.calls[..1]) == trace.calls[0].chunk
  {
    assert trace.calls[..0] == [];
    assert ReadAsksForRest(world, size, trace.calls, 0);
    assert trace.calls[..1][..0] == [];
  }

  /** A wait happens on the first pass only if the deadline had not passed. */
  lemma FirstWaitInTime(world: nat -> Tick, timeout: int, t0: int, waits: seq<int>)
    requires WaitsFollowDeadline(world, timeout, t0, waits)
    ensures |waits| > 0 ==> InTime(world, timeout, t0, 0)
  {
    if |waits| > 0 {
      assert waits[0] == timeout - (world(0).now - t0);
    }
  }

  /** A read happens on the first pass only if its wait reported an event. */
  lemma FirstReadNeedsReady(world: nat -> Tick, size: int, calls: seq<ReadCall>)
    requires ReadsAskForRest(world, size, calls)
    ensures |calls| > 0 ==> world(0).ready
  {
    if |calls| > 0 {
      assert ReadAsksForRest(world, size, calls, 0);
    }
  }

  /** All requested bytes are ready at the first wait: one read returns them. */
  method AllBytesBuffered(fd: Fd, size: int, timeout: int, t0: int, world: nat -> Tick, avail: bytes)
    returns (r: Result<bytes>, trace: Trace)
    requires ValidArgs(fd, size, timeout)
    requires InTime(world, timeout, t0, 0) && world(0).ready && world(0).reply == Available(avail)
    requires |avail| >= size
    ensures r == Ok(avail[..size])
    ensures |trace.calls| == 1 && trace.closed
  {
    r, trace := NonblockingRead(fd, size, timeout, t0, world);
    FirstPassReads(fd, size, timeout, t0, world, r, trace);
    assert trace.calls[0].chunk == avail[..size];
    assert |trace.calls| == 1 by {
      assert |trace.calls| > 1 ==> ReadAsksForRest(world, size, trace.calls, 1);
    }
    assert trace.calls == trace.calls[..1];
  }

  /** The descriptor yields fewer bytes than requested and then reaches end of
      file: exactly those bytes are returned, without an error. */
  method ShortStreamThenEof(fd: Fd, size: int, timeout: int, t0: int, world: nat -> Tick, avail: bytes)
    returns (r: Result<bytes>, trace: Trace)
    requires ValidArgs(fd, size, timeout)
    requires InTime(world, timeout, t0, 0) && world(0).ready && world(0).reply == Available(avail)
    requires 0 < |avail| < size
    requires InTime(world, timeout, t0, 1) && world(1).ready && world(1).reply == Available([])
    ensures r == Ok(avail)
    ensures |trace.calls| == 2 && trace.closed
  {
    r, trace := NonblockingRead(fd, size, timeout, t0, world);
    FirstPassReads(fd, size, timeout, t0, world, r, trace);
    assert ReadAsksForRest(world, size, trace.calls, 1);
    assert trace.calls[0].chunk == avail;
    assert trace.calls[1].chunk == [];
    assert |trace.calls| == 2;
    assert trace.calls == trace.calls[..1] + [trace.calls[1]];
    ConcatAppend(trace.calls[..1], trace.calls[1]);
    assert Concat(trace.calls) == avail;
    assert r.Ok?;
  }

  /** The descriptor never becomes ready: the first wait times out and the
      error reports that nothing of the requested size was read. */
  method SilentDescriptor(fd: Fd, size: int, timeout: int, t0: int, world: nat -> Tick)
    returns (r: Result<bytes>, trace: Trace)
    requires ValidArgs(fd, size, timeout)
    requires InTime(world, timeout, t0, 0) && !world(0).ready
    ensures r == Err(TimeoutError(Stalled(0, size)))
    ensures IntendedProgress(r.error.cause) == Progress(0, size)
    ensures |trace.waits| == 1 && trace.calls == [] && !trace.closed
  {
    r, trace := NonblockingRead(fd, size, timeout, t0, world);
    FirstReadNeedsReady(world, size, trace.calls);
  }

  /** Some bytes arrive, then a wait reports no events: TimeoutError, and the
      partial data is not returned.  The message as written reports the bytes
      still wanted where the bytes requested are meant. */
  method StallAfterPartialRead(fd: Fd, size: int, timeout: int, t0: int, world: nat -> Tick, avail: bytes)
    returns (r: Result<bytes>, trace: Trace)
    requires ValidArgs(fd, size, timeout)
    requires InTime(world, timeout, t0, 0) && world(0).ready && world(0).reply == Available(avail)
    requires 0 < |avail| < size
    requires InTime(world, timeout, t0, 1) && !world(1).ready
    ensures r == Err(TimeoutError(Stalled(|avail|, size - |avail|)))
    ensures ReportedProgress(r.error.cause) == Progress(|avail|, size - |avail|)
    ensures ReportedProgress(r.error.cause).total != size
    ensures IntendedProgress(r.error.cause) == Progress(|avail|, size)
  {
    r, trace := NonblockingRead(fd, size, timeout, t0, world);
    FirstPassReads(fd, size, timeout, t0, world, r, trace);
    assert |trace.calls| == 1 by {
      assert |trace.calls| > 1 ==> ReadAsksForRest(world, size, trace.calls, 1);
    }
    assert trace.calls == trace.calls[..1];
  }

  /** The deadline has already passed when the loop first queries `remaining`:
      TimeoutError before any wait or read. */
  method DeadlinePassedBeforeFirstWait(fd: Fd, size: int, timeout: int, t0: int, world: nat -> Tick)
    returns (r: Result<bytes>, trace: Trace)
    requires ValidArgs(fd, size, timeout)
    requires !InTime(world, timeout, t0, 0)
    ensures r == Err(TimeoutError(Surpassed))
    ensures trace == Trace(true, [], [], false)
  {
    r, trace := NonblockingRead(fd, size, timeout, t0, world);
    FirstWaitInTime(world, timeout, t0, trace.waits);
  }
}

=== FILE: timing.dfy ===
/** The `Stopwatch` class: an optional timeout plus optional start and end
    timestamps.  The monotonic clock is not read here; every operation that
    reads it in the source takes the clock reading `now` as an argument. */
module Timing {
  import opened Outcomes

  datatype Stopwatch = Stopwatch(timeout: Option<int>, startTime: Option<int>, endTime: Option<int>)

  predicate Started(sw: Stopwatch) {
    sw.startTime.Some?
  }

  /** Whether `elapsed` measures up to `endTime` instead of `now`.  The source
      writes `end_time or time.monotonic()`, and Python treats an end time of 0
      as false, so a stopwatch stopped at clock reading 0 is not frozen. */
  predicate Frozen(sw: Stopwatch) {
    sw.endTime.Some? && sw.endTime.value != 0
  }

  /** `Stopwatch(timeout)`: nothing has been started or stopped yet, so every
      `elapsed` query fails. */
  function NewStopwatch(timeout: Option<int>): (sw: Stopwatch)
    ensures sw.timeout == timeout
    ensures !Frozen(sw)
    ensures forall now :: Elapsed(sw, now) == Err(RuntimeError)
  {
    Stopwatch(timeout, None, None)
  }

  /** `elapsed`: the time since the start, measured up to the stop time when
      the stopwatch is frozen and up to `now` otherwise. */
  function Elapsed(sw: Stopwatch, now: int): (r: Result<int>)
    ensures r.Err? <==> !Started(sw)
    ensures r.Err? ==> r.error == RuntimeError
  {
    if sw.startTime.None? then Err(RuntimeError)
    else Ok((if Frozen(sw) then sw.endTime.value else now) - sw.startTime.value)
  }

  /** `remaining`: how much of the timeout is left.  It fails with RuntimeError
      when there is no timeout (or `elapsed` fails), with TimeoutError when the
      elapsed time exceeds the timeout, and otherwise returns a non-negative
      amount that together with the elapsed time makes up the timeout. */
  function Remaining(sw: Stopwatch, now: int): (r: Result<int>)
    ensures r == Err(RuntimeError) <==> sw.timeout.None? || !Started(sw)
    ensures r == Err(TimeoutError(Surpassed)) <==>
              sw.timeout.Some? && Elapsed(sw, now).Ok? && Elapsed(sw, now).value > sw.timeout.value
    ensures r.Err? ==> r.error == RuntimeError || r.error == TimeoutError(Surpassed)
    ensures r.Ok? ==> r.value >= 0 && sw.timeout.Some? && Elapsed(sw, now) == Ok(sw.timeout.value - r.value)
  {
    if sw.timeout.None? then Err(RuntimeError)
    else
      match Elapsed(sw, now)
      case Err(e) => Err(e)
      case Ok(elapsed) =>
        var remaining := sw.timeout.value - elapsed;
        if remaining < 0 then Err(TimeoutError(Surpassed)) else Ok(remaining)
  }

  /** `start()` and `__enter__()`: take `now` as the new origin.  The timeout and
      any earlier stop time are kept, so `elapsed` afterwards runs from `now` to
      the old stop time when the stopwatch was frozen, and to the query's
      reading otherwise. */
  function Start(sw: Stopwatch, now: int): (r: Stopwatch)
    ensures Started(r) && r.timeout == sw.timeout && r.endTime == sw.endTime
    ensures forall later :: Elapsed(r, later) == Ok((if Frozen(sw) then sw.endTime.value else later) - now)
  {
    sw.(startTime := Some(now))
  }

  /** `stop()` and `__exit__()`: record `now` as the end time, started or not.
      A started stopwatch stopped at a non-zero reading reports the same elapsed
      time whenever it is queried afterwards; stopped at reading 0 it keeps running. */
  function Stop(sw: Stopwatch, now: int): (r: Stopwatch)
    ensures r.timeout == sw.timeout && r.startTime == sw.startTime
    ensures Frozen(r) <==> now != 0
    ensures Frozen(r) ==> r.endTime == Some(now)
    ensures Started(sw) && now != 0 ==>
              forall later :: Elapsed(r, later) == Ok(now - sw.startTime.value)
    ensures Started(sw) && now == 0 ==>
              forall later :: Elapsed(r, later) == Ok(later - sw.startTime.value)
  {
    sw.(endTime := Some(now))
  }

  /** Stopping a stopwatch that was never started still records the end time, so
      starting it afterwards leaves `elapsed` frozen at stop minus start. */
  lemma StopBeforeStart(timeout: Option<int>, stop: int, start: int, later: int)
    requires stop != 0
    ensures Elapsed(Start(Stop(NewStopwatch(timeout), stop), start), later) == Ok(stop - start)
  {
  }

  /** Used as a context manager, the stopwatch measures exactly the span of the
      `with` block (when the exit reading is non-zero). */
  lemma ScopedMeasuresBlock(timeout: Option<int>, enter: int, exit: int, later: int)
    requires exit != 0
    ensures Elapsed(Stop(Start(NewStopwatch(timeout), enter), exit), later) == Ok(exit - enter)
  {
  }

  /** While running, `remaining` strictly decreases as the clock advances: a
      later successful query implies an earlier successful one with more time left. */
  lemma RemainingDecreases(sw: Stopwatch, now1: int, now2: int)
    requires Started(sw) && !Frozen(sw)
    requires now1 < now2
    requires Remaining(sw, now2).Ok?
    ensures Remaining(sw, now1).Ok?
    ensures Remaining(sw, now2).value < Remaining(sw, now1).value
  {
  }

  /** A running stopwatch with a timeout reports 0 remaining exactly at the
      deadline and raises TimeoutError at every later reading. */
  lemma RemainingAtDeadline(sw: Stopwatch, now: int)
    requires Started(sw) && !Frozen(sw) && sw.timeout.Some?
    ensures now == sw.startTime.value + sw.timeout.value ==> Remaining(sw, now) == Ok(0)
    ensures now > sw.startTime.value + sw.timeout.value ==> Remaining(sw, now) == Err(TimeoutError(Surpassed))
  {
  }

  /** Restarting a stopped stopwatch does not clear its end time: `elapsed` stays
      frozen at the old stop reading minus the new origin, negative when the
      restart comes later than the stop, so `remaining` is the same at every
      reading and never runs out. */
  lemma RestartKeepsStopTime(timeout: int, start: int, stop: int, restart: int, later: int)
    requires timeout >= 0 && stop != 0 && restart > stop
    ensures Elapsed(Start(Stop(Start(NewStopwatch(Some(timeout)), start), stop), restart), later)
            == Ok(stop - restart)
    ensures Remaining(Start(Stop(Start(NewStopwatch(Some(timeout)), start), stop), restart), later)
            == Ok(timeout - (stop - restart))
  {
  }
}
